=== FILE: README.md ===
# ActivityLog — a Dafny model of the activity-log region module

`ActivityLogModule` is an OpenSim shared region module. It records agent
presence and chat in per-region, per-day text files. Three parts of its
state matter here:

- a dictionary from each agent to the region it was last root in
  (`m_lastRegionID`);
- an optional entry notice shown to arriving agents;
- old log files, which a timer and the `activity delete` console command
  remove.

This project models the module's decision logic as pure Dafny. The OpenSim
plumbing, the file system and the clocks become parameters.

- `Router` is the session tracker and event router, written as a pure
  state machine. `Step` takes the settings, the scene list, the local time,
  a state and one event. The events are `MakeRoot`, `MakeChild`, `Logout`
  and `Chat`. The state holds:
  - the agent-to-region map;
  - the append-only sequence of log entries, each with its region, day
    and text;
  - the entry notices sent.

  `Run` delivers a sequence of events. `LastActive` is an independent
  reference for the tracker that reads the events backwards.
- `LogFormat` writes the four record kinds (`ARRIVED`, `DEPARTED`,
  `LOGOUT`, `CHAT`), the `yyyy-MM-dd HH:mm ` line prefix and the
  `<dir>/ActivityLog-<region>-<yyyy-MM-dd>.log` file name. The record and
  line formatters each have a parser, and round-trip lemmas show that the
  written text determines what was logged. The file name has no parser;
  an injectivity lemma shows that it determines the region and the day.
- `Names` models `findAvatar` and `UserName`, the priority rule that
  resolves an actor name.
- `Retention` models the retention sweep `DeleteOldLogFiles` twice: as a
  function and as the loop the source runs. It also models the timer
  handler and the argument rule of `activity delete`.
- `Config` models `Initialise`: the defaults, the `TrimEnd('/')` of the entry
  message, and the timer guard with the source's 32-bit interval
  arithmetic.
- `Text`, `Uuids` and `Calendar` model the .NET text forms the module
  relies on:
  - `Int32.ToString` and `Int32.TryParse`;
  - `String.TrimEnd`, with `TrimStart` only as part of the `Int32.TryParse` model;
  - the hyphenated lower-case UUID text;
  - the custom date formats.

  `Wrappers` holds `Option`.

Behaviours of the code that the model keeps as written:

- A logout by an agent with no recorded region is written to the file of
  region `UUID.Zero`, the default value `TryGetValue` leaves in its out
  parameter.
- The line prefix formats `DateTime.Today`, so the `HH:mm` part is always
  `00:00` (`LogFormat.LinePrefix`).
- The code never creates the log directory. Appending to a file in a
  missing directory fails.
- `UserName` indexes the first scene when no root presence is found. With
  an empty scene list this throws. The model returns `None`, and the
  handler's earlier effects stand:
  - the tracker update;
  - for a root transition, the entry notice.

  No line is written.
- `DateTime.Now.AddDays(-numDays)` is evaluated inside the file loop. If
  the result falls outside the `DateTime` range, it throws on the first file
  and nothing is deleted. An empty directory never reaches it
  (`Retention.Sweep`). The model reads the clock once per sweep; see
  "Left out".
- `TimerInterval * 60 * 60 * 1000` is 32-bit arithmetic. From 597 to 1193
  hours the product wraps to a negative value and the timer is not started
  (`Config.TimerIntervalNegativeBand`). Larger values wrap modulo 2^32 and
  can be positive again: 1194 hours starts the timer with an interval of
  about 57 minutes (`Config.TimerIntervalWrapsBack`). The wrap also turns
  negative settings positive: from -1193 to -597 hours the timer is started
  (`Config.TimerIntervalPositiveBand`).

## Model

| member | source | states |
|---|---|---|
| Router.OnMakeRoot | ActivityLog/Modules/ActivityLog.cs:225-239 | the agent now maps to the new region and every other agent's entry is as before; an entry notice carrying the message is added exactly when chat logging is on and the message is non-empty; exactly one `ARRIVED` line for the resolved name goes to the new region when presence logging is on and the name resolves, otherwise the log is unchanged |
| Router.OnMakeChild | ActivityLog/Modules/ActivityLog.cs:241-251 | the agent is no longer tracked and every other entry is as before; no notice; exactly one `DEPARTED` line goes to the event's region when presence logging is on and the name resolves, otherwise nothing is written |
| Router.LogoutRegion | ActivityLog/Modules/ActivityLog.cs:257-260 | the region a logout is logged to is the agent's tracked region, or `UUID.Zero` when the agent is not tracked |
| Router.OnLogout | ActivityLog/Modules/ActivityLog.cs:253-264 | the agent is no longer tracked and others are unchanged; one `LOGOUT` line goes to the pre-state region, or to `UUID.Zero`, when presence logging is on and the name resolves; no notice |
| Router.OnChat | ActivityLog/Modules/ActivityLog.cs:293-309 | chat from an object, an empty message, a non-zero channel without all-channel logging, or chat logging off (the handler is then never subscribed) leaves the state exactly as it was; otherwise, when the name resolves (a live presence or at least one scene), one `CHAT` line with channel and message goes to the event's region, and with no scenes and no presence nothing is written; the tracker and notices never change |
| Router.Step | ActivityLog/Modules/ActivityLog.cs:225-309 | every event keeps earlier log lines and notices as they were and adds at most one of each; a new line is dated the day of delivery |
| Router.DisabledModuleIdle | ActivityLog/Modules/ActivityLog.cs:105-117 | without an `[Activity Log]` section, or with `Enabled` not true, the module subscribes to nothing, so no event sequence changes the tracker, the log or the notices |
| Router.EnabledModuleRuns | ActivityLog/Modules/ActivityLog.cs:156-171 | an enabled module, whatever its timer state, handles every event sequence as the event handlers do with its settings |
| Router.TrackerIsLastActive | ActivityLog/Modules/ActivityLog.cs:225-264 | after any event sequence, the tracker's entry for an agent is the region of its latest root transition not since undone by a child transition or a logout of that agent, as read backwards through the events; chat never affects it |
| Router.LogAppendOnly | ActivityLog/Modules/ActivityLog.cs:337-346 | over any event sequence, the log only grows at its end and by at most one line per event |
| Router.RunKeepsReadable | ActivityLog/Modules/ActivityLog.cs:272-346 | when no presence or account name contains a double quote, every entry ever written parses back into its day at 00:00 and a record (which record it is follows from `LogFormat.LineRoundTrip` and the handlers' contracts) |
| Router.SameFileIffSameRegionAndDay | ActivityLog/Modules/ActivityLog.cs:348-351 | two log entries go to the same file exactly when they have the same region and the same day |
| Router.RootStep | ActivityLog/Modules/ActivityLog.cs:225-239 | with presence logging on and at least one scene, a root transition maps the agent to the region and appends one `ARRIVED` line there |
| Router.ChildStep | ActivityLog/Modules/ActivityLog.cs:241-251 | with presence logging on and at least one scene, a child transition removes the agent's entry and appends one `DEPARTED` line to that region |
| Router.LogoutStep | ActivityLog/Modules/ActivityLog.cs:253-264 | with presence logging on and at least one scene, a logout removes the agent's entry and appends one `LOGOUT` line to its last root region, or to `UUID.Zero` |
| Router.MoveThenLogout | ActivityLog/Modules/ActivityLog.cs:225-264 | with presence logging on and at least one scene, arriving in r1, moving to r2 and logging out writes `ARRIVED` and `DEPARTED` to r1 and `ARRIVED` and `LOGOUT` to r2, in that order, and leaves the tracker empty |
| Router.RootBeforeChildLosesRegion | ActivityLog/Modules/ActivityLog.cs:236-261 | with presence logging on and at least one scene, if the new region's root transition arrives before the old region's child transition, the child transition erases the entry and the later logout is written to the `UUID.Zero` region |
| Names.FindAvatar | ActivityLog/Modules/ActivityLog.cs:398-416 | the result is the presence in the first scene, in list order, where the agent is root; it is absent exactly when the agent is root in no scene |
| Names.UserName | ActivityLog/Modules/ActivityLog.cs:418-433 | the name of the first root presence wins; failing that, the first scene's account name; failing that, `unknown`; with no scenes the lookup fails (the source throws) |
| Names.UserNameQuoteFree | ActivityLog/Modules/ActivityLog.cs:418-433 | a resolved name is always a scene's presence or account name or `unknown`, so quote-free scenes give quote-free names |
| LogFormat.RecordRoundTrip | ActivityLog/Modules/ActivityLog.cs:276-308 | every record whose name has no double quote is read back exactly from its text (tag, quoted name, agent id, and for chat the channel and message) |
| LogFormat.LinePrefix | ActivityLog/Modules/ActivityLog.cs:343 | the prefix is the day's date followed by ` 00:00 `, whatever the time of day |
| LogFormat.LineRoundTrip | ActivityLog/Modules/ActivityLog.cs:343-344 | a written line reads back as the day at midnight and the record |
| LogFormat.LogFileName | ActivityLog/Modules/ActivityLog.cs:350 | the name is the directory plus 64 fixed-width characters |
| LogFormat.LogFileNameIdentifies | ActivityLog/Modules/ActivityLog.cs:348-351 | two file names in one directory are equal exactly when region and day are equal |
| Calendar.Today | ActivityLog/Modules/ActivityLog.cs:343 | `DateTime.Today` keeps the date and sets the time to 00:00 |
| Calendar.DateRoundTrip | ActivityLog/Modules/ActivityLog.cs:350 | a `yyyy-MM-dd` text reads back as its date |
| Calendar.StampRoundTrip | ActivityLog/Modules/ActivityLog.cs:343 | a `yyyy-MM-dd HH:mm ` stamp reads back as its date, hour and minute |
| Calendar.DateTextInjective | ActivityLog/Modules/ActivityLog.cs:350 | distinct dates are written differently |
| Uuids.UuidText | ActivityLog/Modules/ActivityLog.cs:276 | the text of an id is 36 characters with hyphens at 8, 13, 18 and 23 and contains no quote or blank |
| Uuids.UuidRoundTrip | ActivityLog/Modules/ActivityLog.cs:276 | the 8-4-4-4-12 hexadecimal text of every id reads back as that id |
| Uuids.UuidTextInjective | ActivityLog/Modules/ActivityLog.cs:350 | distinct ids are written differently |
| Text.TrimEnd | ActivityLog/Modules/ActivityLog.cs:128 | the result is a prefix of the input, everything removed is in the trim set, and the result does not end with a character from the set |
| Text.TrimEndIdempotent | ActivityLog/Modules/ActivityLog.cs:128 | trimming a trimmed message changes nothing |
| Text.ParseIntText | ActivityLog/Modules/ActivityLog.cs:460 | `Int32.TryParse` accepts the decimal text of every 32-bit integer and returns that integer |
| Config.Wrap32 | ActivityLog/Modules/ActivityLog.cs:132 | the 32-bit result agrees with the exact value modulo 2^32 and equals it whenever the exact value fits |
| Router.ChatOffIgnoresChat | ActivityLog/Modules/ActivityLog.cs:123-171 | with `LogChatsEnabled` set to false the chat handler is not subscribed, so no chat event changes the tracker, the log or the notices |
| Config.Initialise | ActivityLog/Modules/ActivityLog.cs:95-141 | the module is enabled exactly when the section exists and `Enabled` is true; every other setting (chat, presence and all-channel logging, log directory, retention days) is the configured value or its default, and the interval is the configured hours, default 12, times 3600000 in 32-bit arithmetic; the entry message is the configured one without trailing slashes; the timer is armed exactly when retention and interval are both positive |
| Config.TimerArmedAsConfigured | ActivityLog/Modules/ActivityLog.cs:132-140 | for interval settings within 596 hours the timer runs exactly when retention days and interval hours are positive |
| Config.TimerIntervalNegativeBand | ActivityLog/Modules/ActivityLog.cs:132-135 | every interval setting from 597 to 1193 hours wraps to a negative count, and the timer is not started |
| Config.TimerIntervalWrapsBack | ActivityLog/Modules/ActivityLog.cs:132-135 | 1194 hours wraps to 3432704 ms, so with a positive retention the timer is started with that interval |
| Config.TimerIntervalPositiveBand | ActivityLog/Modules/ActivityLog.cs:132-135 | every interval setting from -1193 to -597 hours wraps to a positive count, so with a positive retention the timer is started |
| Config.SlashOnlyMessageIsEmpty | ActivityLog/Modules/ActivityLog.cs:127-128 | an entry message made only of slashes becomes empty, so no notice is sent |
| Retention.Cutoff | ActivityLog/Modules/ActivityLog.cs:362 | the cutoff is now minus the day count, and exists exactly when it lies in the `DateTime` range |
| Retention.KeptMembers | ActivityLog/Modules/ActivityLog.cs:359-367 | a file is kept exactly when it is listed and not strictly older than the cutoff |
| Retention.DeletedMembers | ActivityLog/Modules/ActivityLog.cs:359-367 | a file is deleted exactly when it is listed and strictly older than the cutoff |
| Retention.KeptAndDeletedPartition | ActivityLog/Modules/ActivityLog.cs:359-367 | kept and deleted files together are the listed files, as a multiset |
| Retention.Sweep | ActivityLog/Modules/ActivityLog.cs:353-368 | the sweep aborts exactly when the directory is non-empty and the cutoff is out of range; otherwise it deletes exactly the files older than the cutoff and keeps exactly the others |
| Retention.DeleteOldLogFiles | ActivityLog/Modules/ActivityLog.cs:353-368 | the file loop computes the same outcome as the sweep, keeping the surviving files in directory order |
| Retention.SweepIdempotent | ActivityLog/Modules/ActivityLog.cs:357-367 | a second sweep with the same time and day count deletes nothing and keeps everything |
| Retention.OnTimer | ActivityLog/Modules/ActivityLog.cs:370-374 | the timer sweep never aborts on an empty directory, deletes exactly the files not read within the retention period, and keeps every file read at or after `now` |
| Retention.SevenDayScenario | ActivityLog/Modules/ActivityLog.cs:370-374 | with 7 days' retention, a file last read 10 days ago is deleted and one read 2 days ago is kept |
| Retention.DeleteDays | ActivityLog/Modules/ActivityLog.cs:454-464 | without a third argument the retention setting is used; an unparsable argument means no sweep; a negative count means no sweep; otherwise the parsed count is used |
| Retention.ActivityDelete | ActivityLog/Modules/ActivityLog.cs:454-464 | without a count the command sweeps with the configured retention, with one it sweeps with the parsed count; it does nothing when that count does not parse or is negative, so a file read at or after `now` is never deleted |
| Retention.DeleteWithCount | ActivityLog/Modules/ActivityLog.cs:456-463 | `activity delete <n>` sweeps with n when n is non-negative and does nothing when n is negative |

## Left out

- File I/O (`File.AppendText`, `Directory.GetFiles`, `FileInfo.Delete`) is not modelled. The log is a sequence of entries with their target file name, and a directory listing is a sequence of names with access times. Write and delete failures, including a missing log directory, are not modelled.
- `System.Timers.Timer` scheduling and the clocks (`DateTime.Now`, `DateTime.Today`, `LastAccessTime`) are parameters: a `Moment` to the minute for the log, and ticks for the sweep. Each operation reads the clock once.
- Router.RunKeepsReadable: the model picks the file and writes the line prefix from one reading of the clock. `LogRecord` reads `DateTime.Today` twice: once for the file name, then again for the prefix. A record written across midnight therefore lands in day D's file with a day D+1 prefix. "Parses back into its day" holds of the model, not of a write that straddles midnight.
- Retention.DeleteOldLogFiles: the model computes one cutoff per sweep from one `now`. The source reads `DateTime.Now` again for every file, so the cutoff rises slightly during a sweep. A file whose access time falls between the first and a later cutoff can be deleted by the source but kept by the model. `Retention.Sweep`, `Retention.SweepIdempotent` and `Retention.OnTimer` share this single-reading assumption.
- Router.RunKeepsReadable: an entry is one logical record. `WriteLine` writes a chat message that contains a line break across several physical lines, and a reader that splits the file at line breaks cannot parse the later ones. The round trip is about entries, not physical lines.
- Concurrency is not modelled. The tracker dictionary is shared unlocked between region threads; the model delivers events one at a time.
- OpenSim wiring is not modelled: `AddRegion`/`RemoveRegion` subscription beyond the enabled and chat-logging conditions, `NewClient`'s logout registration, console command registration and `m_first_scene`. Scenes, presences and the user-account service are given as maps.
- `ShowEntryMessage` is modelled only by recipient and text. The remaining `GridInstantMessage` fields decide nothing: they are constants and a send timestamp read from the clock (`Util.UnixTimeSinceEpoch`, ActivityLog.cs:321).
- The `activity users` and `activity files` listings are not modelled, since they only write to the log4net log. Neither are the log4net messages.
- `findScene` is not modelled: nothing in the module calls it.
- Nini's `GetBoolean`, `GetString` and `GetInt` text parsing is not modelled. A configuration section is given as already-typed optional values.
- Text is modelled as the invariant culture writes and reads it: the time separator `:`, the minus sign `-` and white space in `Int32.TryParse`. Culture-specific separators, signs and Unicode digits are left out.
- The `m_scenes == null` checks are not modelled. The list is created with the module and never set to null.
- `Int32.TryParse` is modelled with the `NumberStyles.Integer` grammar: white space, an optional sign, digits. Only the round trip of the module's own integer text is proved about it, not its behaviour on every input.

=== FILE: calendar.dfy ===
/** Calendar values of the host clock (`DateTime`, to the minute) and the
    two custom formats the module writes: `yyyy-MM-dd` and
    `yyyy-MM-dd HH:mm `. */
module Calendar {
  import opened Wrappers
  import opened Text

  datatype Date = Date(year: int, month: int, day: int)

  /** A local date and time of day, to the minute (`DateTime.Now`). */
  datatype Moment = Moment(date: Date, hour: int, minute: int)

  predicate IsLeapYear(y: int) {
    y % 4 == 0 && (y % 100 != 0 || y % 400 == 0)
  }

  function DaysInMonth(y: int, m: int): int
    requires 1 <= m <= 12
  {
    if m == 2 then (if IsLeapYear(y) then 29 else 28)
    else if m == 4 || m == 6 || m == 9 || m == 11 then 30
    else 31
  }

  /** The dates a `DateTime` can hold: years 1 to 9999. */
  predicate ValidDate(d: Date) {
    && 1 <= d.year <= 9999
    && 1 <= d.month <= 12
    && 1 <= d.day <= DaysInMonth(d.year, d.month)
  }

  predicate ValidMoment(m: Moment) {
    ValidDate(m.date) && 0 <= m.hour < 24 && 0 <= m.minute < 60
  }

  /** `DateTime.Today`: the same date at midnight. */
  function Today(m: Moment): (t: Moment)
    requires ValidMoment(m)
    ensures ValidMoment(t) && t.date == m.date && t.hour == 0 && t.minute == 0
  {
    Moment(m.date, 0, 0)
  }

  /** `ToString("yyyy-MM-dd")`. */
  function DateText(d: Date): (s: string)
    requires ValidDate(d)
    ensures |s| == 10 && s[4] == '-' && s[7] == '-'
  {
    Digits(d.year, 4) + "-" + Digits(d.month, 2) + "-" + Digits(d.day, 2)
  }

  /** Reads `yyyy-MM-dd` back; anything else is rejected. */
  function ParseDate(s: string): (r: Option<Date>)
  {
    if |s| != 10 || s[4] != '-' || s[7] != '-' then None
    else if !AllDigits(s[..4]) || !AllDigits(s[5..7]) || !AllDigits(s[8..]) then None
    else Some(Date(Value(s[..4]), Value(s[5..7]), Value(s[8..])))
  }

  lemma DateRoundTrip(d: Date)
    requires ValidDate(d)
    ensures ParseDate(DateText(d)) == Some(d)
  {
    var s := DateText(d);
    assert s[..4] == Digits(d.year, 4);
    assert s[5..7] == Digits(d.month, 2);
    assert s[8..] == Digits(d.day, 2);
    DigitsValue(d.year, 4);
    DigitsValue(d.month, 2);
    DigitsValue(d.day, 2);
  }

  /** `ToString("yyyy-MM-dd HH:mm ")`, trailing blank included. */
  function StampText(m: Moment): (s: string)
    requires ValidMoment(m)
    ensures |s| == 17 && s[..10] == DateText(m.date) && s[16] == ' '
  {
    DateText(m.date) + " " + Digits(m.hour, 2) + ":" + Digits(m.minute, 2) + " "
  }

  /** Reads a `yyyy-MM-dd HH:mm ` stamp back. */
  function ParseStamp(s: string): (r: Option<Moment>)
  {
    if |s| != 17 || s[10] != ' ' || s[13] != ':' || s[16] != ' ' then None
    else if !AllDigits(s[11..13]) || !AllDigits(s[14..16]) then None
    else match ParseDate(s[..10])
      case None => None
      case Some(d) => Some(Moment(d, Value(s[11..13]), Value(s[14..16])))
  }

  lemma StampRoundTrip(m: Moment)
    requires ValidMoment(m)
    ensures ParseStamp(StampText(m)) == Some(m)
  {
    var s := StampText(m);
    assert s[11..13] == Digits(m.hour, 2);
    assert s[14..16] == Digits(m.minute, 2);
    DigitsValue(m.hour, 2);
    DigitsValue(m.minute, 2);
    DateRoundTrip(m.date);
  }

  /** Distinct days are written differently, so the day part of a log
      file name identifies the day. */
  lemma DateTextInjective(d: Date, e: Date)
    requires ValidDate(d) && ValidDate(e)
    requires DateText(d) == DateText(e)
    ensures d == e
  {
    DateRoundTrip(d);
    DateRoundTrip(e);
  }
}

=== FILE: config.dfy ===
/** Start-up configuration: reading the `[Activity Log]` section into the
    settings the handlers use, the `TrimEnd('/')` of the entry message, and
    the guard that decides whether the retention timer is started. */
module Config {
  import opened Wrappers
  import opened Text

  /** The `[Activity Log]` section as read by Nini: each key absent or set. */
  datatype Section = Section(
    enabled: Option<bool>,
    logChatsEnabled: Option<bool>,
    logPresenceEnabled: Option<bool>,
    logAllChannels: Option<bool>,
    messageOnEntry: Option<string>,
    logDirectory: Option<string>,
    keepForDays: Option<Int32>,
    timerInterval: Option<Int32>)

  /** The effective settings of an enabled module. */
  datatype Settings = Settings(
    logChats: bool,
    logPresence: bool,
    logAllChannels: bool,
    messageOnEntry: string,
    logDirectory: string,
    keepForDays: Int32,
    timerIntervalMs: Int32)

  /** An enabled module subscribes to region events; a disabled one does nothing. */
  datatype Module = Disabled | Enabled(settings: Settings, timerArmed: bool)

  const DefaultLogChats := true
  const DefaultLogPresence := true
  const DefaultLogAllChannels := false
  const DefaultMessageOnEntry := "Notice: All chat in this region is recorded and logged by the region owner."
  const DefaultLogDirectory := "./ActivityLogs"
  const DefaultKeepForDays := 31
  const DefaultTimerHours := 12
  const MillisPerHour := 60 * 60 * 1000

  /** Two's-complement wrap-around of C#'s unchecked `int` arithmetic. */
  function Wrap32(x: int): (r: Int32)
    ensures (x - r) % 0x1_0000_0000 == 0
    ensures IsInt32(x) ==> r == x
  {
    (x + 0x8000_0000) % 0x1_0000_0000 - 0x8000_0000
  }

  /** `TimerInterval * 60 * 60 * 1000` evaluated in 32-bit arithmetic. */
  function TimerIntervalMs(hours: Int32): Int32 {
    Wrap32(hours * MillisPerHour)
  }

  /** The source starts the retention timer only for a positive retention
      period and a positive interval. */
  predicate TimerGuard(keepForDays: int, intervalMs: int) {
    keepForDays > 0 && intervalMs > 0
  }

  /** `msg` is `raw` without its trailing slashes. */
  predicate TrimmedOfSlashes(raw: string, msg: string) {
    && msg <= raw
    && (forall i :: |msg| <= i < |raw| ==> raw[i] == '/')
    && (|msg| == 0 || msg[|msg| - 1] != '/')
  }

  /** `Initialise`: an absent section or `Enabled` not set to true leaves
      the module disabled; otherwise each key falls back to its default. */
  function Initialise(section: Option<Section>): (m: Module)
    ensures m.Enabled? <==> section.Some? && section.value.enabled == Some(true)
    ensures m.Enabled? ==> TrimmedOfSlashes(section.value.messageOnEntry.GetOr(DefaultMessageOnEntry), m.settings.messageOnEntry)
    ensures m.Enabled? ==>
              var c := section.value;
              && m.settings.logChats == c.logChatsEnabled.GetOr(DefaultLogChats)
              && m.settings.logPresence == c.logPresenceEnabled.GetOr(DefaultLogPresence)
              && m.settings.logAllChannels == c.logAllChannels.GetOr(DefaultLogAllChannels)
              && m.settings.logDirectory == c.logDirectory.GetOr(DefaultLogDirectory)
              && m.settings.keepForDays == c.keepForDays.GetOr(DefaultKeepForDays)
              && m.settings.timerIntervalMs == TimerIntervalMs(c.timerInterval.GetOr(DefaultTimerHours))
    ensures m.Enabled? ==>
              (m.timerArmed <==> m.settings.keepForDays > 0 && m.settings.timerIntervalMs > 0)
  {
    match section
    case None => Disabled
    case Some(c) =>
      if !c.enabled.GetOr(false) then Disabled
      else
        var s := Settings(
          c.logChatsEnabled.GetOr(DefaultLogChats),
          c.logPresenceEnabled.GetOr(DefaultLogPresence),
          c.logAllChannels.GetOr(DefaultLogAllChannels),
          TrimEnd(c.messageOnEntry.GetOr(DefaultMessageOnEntry), {'/'}),
          c.logDirectory.GetOr(DefaultLogDirectory),
          c.keepForDays.GetOr(DefaultKeepForDays),
          TimerIntervalMs(c.timerInterval.GetOr(DefaultTimerHours)));
        Enabled(s, TimerGuard(s.keepForDays, s.timerIntervalMs))
  }

  /** For interval settings up to 596 hours the 32-bit product is exact,
      and the timer runs exactly when both retention and interval are
      positive; this covers the default of 12 hours. */
  lemma TimerArmedAsConfigured(c: Section)
    requires c.enabled == Some(true)
    requires -596 <= c.timerInterval.GetOr(DefaultTimerHours) <= 596
    ensures var m := Initialise(Some(c));
            m.timerArmed <==> c.keepForDays.GetOr(DefaultKeepForDays) > 0 && c.timerInterval.GetOr(DefaultTimerHours) > 0
  {
    var h := c.timerInterval.GetOr(DefaultTimerHours);
    assert IsInt32(h * MillisPerHour);
  }

  /** Every setting from 597 to 1193 hours wraps to a negative interval,
      so an enabled module with such a setting never starts its timer. */
  lemma TimerIntervalNegativeBand(c: Section)
    requires c.enabled == Some(true)
    requires c.timerInterval.Some? && 597 <= c.timerInterval.value <= 1193
    ensures TimerIntervalMs(c.timerInterval.value) < 0
    ensures !Initialise(Some(c)).timerArmed
  {
  }

  /** The wrap is modulo 2^32, so larger settings can read as positive
      again: 1194 hours arms the timer with an interval of 3432704 ms,
      about 57 minutes. */
  lemma TimerIntervalWrapsBack(c: Section)
    requires c.enabled == Some(true)
    requires c.timerInterval == Some(1194) && c.keepForDays == Some(31)
    ensures TimerIntervalMs(1194) == 3432704
    ensures Initialise(Some(c)).timerArmed
    ensures Initialise(Some(c)).settings.timerIntervalMs == 3432704
  {
  }

  /** The wrap also turns negative settings positive: every setting from
      -1193 to -597 hours reads as a positive interval, so with a positive
      retention the timer is started. */
  lemma TimerIntervalPositiveBand(c: Section)
    requires c.enabled == Some(true)
    requires c.timerInterval.Some? && -1193 <= c.timerInterval.value <= -597
    requires c.keepForDays.GetOr(DefaultKeepForDays) > 0
    ensures TimerIntervalMs(c.timerInterval.value) > 0
    ensures Initialise(Some(c)).timerArmed
  {
  }

  /** An entry message made only of slashes is trimmed to the empty
      string, which switches the entry notice off. */
  lemma SlashOnlyMessageIsEmpty(c: Section)
    requires c.enabled == Some(true)
    requires c.messageOnEntry.Some?
    requires forall i :: 0 <= i < |c.messageOnEntry.value| ==> c.messageOnEntry.value[i] == '/'
    ensures Initialise(Some(c)).settings.messageOnEntry == ""
  {
  }
}

=== FILE: log_format.dfy ===
/** The durable output format: the four tagged records, the line written
    for each record, and the per-region, per-day log file name. Each
    formatter is paired with the parser a log consumer would use, and the
    round trips show that the written text determines what was logged. */
module LogFormat {
  import opened Wrappers
  import opened Text
  import opened Uuids
  import opened Calendar

  /** One logged event: actor name, agent and, for chat, channel and text. */
  datatype Record =
    | Arrived(name: string, agent: Uuid)
    | Departed(name: string, agent: Uuid)
    | LoggedOut(name: string, agent: Uuid)
    | Chatted(name: string, agent: Uuid, channel: Int32, message: string)

  function Tag(r: Record): string {
    match r
    case Arrived(_, _) => "ARRIVED"
    case Departed(_, _) => "DEPARTED"
    case LoggedOut(_, _) => "LOGOUT"
    case Chatted(_, _, _, _) => "CHAT"
  }

  /** What follows the agent id: only chat records carry extra fields. */
  function Extra(r: Record): string {
    match r
    case Chatted(_, _, ch, msg) => " Channel " + IntText(ch) + ": " + msg
    case _ => ""
  }

  /** `TAG "<name>" <agent>[ Channel <n>: <message>]`. */
  function RecordText(r: Record): string
  {
    Tag(r) + " \"" + r.name + "\" " + UuidText(r.agent) + Extra(r)
  }

  /** The record a well-formed header and tail describe. */
  function Build(tag: string, name: string, agent: Uuid, extra: string): Option<Record> {
    if tag == "ARRIVED" && extra == "" then Some(Arrived(name, agent))
    else if tag == "DEPARTED" && extra == "" then Some(Departed(name, agent))
    else if tag == "LOGOUT" && extra == "" then Some(LoggedOut(name, agent))
    else if tag == "CHAT" && |extra| >= 9 && extra[..9] == " Channel " then
      match SplitAtFirst(extra[9..], ':')
      case None => None
      case Some(p) =>
        match TryParseInt32(p.0)
        case None => None
        case Some(ch) =>
          if |p.1| >= 1 && p.1[0] == ' ' then Some(Chatted(name, agent, ch, p.1[1..])) else None
    else None
  }

  /** A log reader's view of a record: the tag up to the first blank, the
      name between the first two quotes, the 36-character agent id, and
      for chat the channel up to the first colon and the rest as message. */
  function ParseRecord(s: string): (r: Option<Record>)
  {
    match SplitAtFirst(s, ' ')
    case None => None
    case Some(p) =>
      var rest := p.1;
      if |rest| == 0 || rest[0] != '\"' then None
      else match SplitAtFirst(rest[1..], '\"')
        case None => None
        case Some(q) =>
          var tail := q.1;
          if |tail| < 37 || tail[0] != ' ' then None
          else match ParseUuid(tail[1..37])
            case None => None
            case Some(agent) => Build(p.0, q.0, agent, tail[37..])
  }

  lemma BuildChat(name: string, agent: Uuid, ch: Int32, msg: string)
    ensures Build("CHAT", name, agent, Extra(Chatted(name, agent, ch, msg))) == Some(Chatted(name, agent, ch, msg))
  {
    var e := Extra(Chatted(name, agent, ch, msg));
    assert e == " Channel " + IntText(ch) + ": " + msg;
    ChatExtraSplit(ch, msg);
    ParseIntText(ch);
    BuildChatFields(name, agent, e, IntText(ch), ch, " " + msg, msg);
  }

  /** The chat tail splits into the channel text and the blank-led message. */
  lemma ChatExtraSplit(ch: Int32, msg: string)
    ensures var e := " Channel " + IntText(ch) + ": " + msg;
            |e| >= 9 && e[..9] == " Channel " && SplitAtFirst(e[9..], ':') == Some((IntText(ch), " " + msg))
  {
    var t := IntText(ch);
    var e := " Channel " + t + ": " + msg;
    assert e[..9] == " Channel ";
    assert e[9..] == t + [':'] + (" " + msg);
    assert ':' !in t;
    SplitJoin(t, ':', " " + msg);
  }

  lemma BuildChatFields(name: string, agent: Uuid, e: string, t: string, ch: Int32, after: string, msg: string)
    requires |e| >= 9 && e[..9] == " Channel "
    requires SplitAtFirst(e[9..], ':') == Some((t, after))
    requires TryParseInt32(t) == Some(ch)
    requires |after| >= 1 && after[0] == ' ' && after[1..] == msg
    ensures Build("CHAT", name, agent, e) == Some(Chatted(name, agent, ch, msg))
  {
  }

  lemma BuildRecord(r: Record)
    ensures Build(Tag(r), r.name, r.agent, Extra(r)) == Some(r)
  {
    match r
    case Chatted(n, a, ch, msg) => BuildChat(n, a, ch, msg);
    case _ =>
  }

  /** A record whose actor name has no double quote is read back exactly;
      a quote in the name would end the name field early. */
  lemma RecordRoundTrip(r: Record)
    requires '\"' !in r.name
    ensures ParseRecord(RecordText(r)) == Some(r)
  {
    var s := RecordText(r);
    var u := UuidText(r.agent);
    var tail := " " + u + Extra(r);
    var inner := r.name + ['\"'] + tail;
    var rest := ['\"'] + inner;
    assert SplitAtFirst(s, ' ') == Some((Tag(r), rest)) by {
      RecordTextShape(r);
      TagHasNoBlank(r);
      SplitJoin(Tag(r), ' ', rest);
    }
    assert SplitAtFirst(rest[1..], '\"') == Some((r.name, tail)) by {
      assert rest[1..] == inner;
      SplitJoin(r.name, '\"', tail);
    }
    BlankThenId(u, Extra(r));
    UuidRoundTrip(r.agent);
    ParseRecordFields(s, Tag(r), rest, r.name, tail, r.agent);
    BuildRecord(r);
  }

  lemma RecordTextShape(r: Record)
    ensures RecordText(r) == Tag(r) + [' '] + (['\"'] + (r.name + ['\"'] + (" " + UuidText(r.agent) + Extra(r))))
  {
    RegroupFields(Tag(r), r.name, UuidText(r.agent), Extra(r));
  }

  lemma RegroupFields(t: string, n: string, u: string, e: string)
    ensures t + " \"" + n + "\" " + u + e == t + [' '] + (['\"'] + (n + ['\"'] + (" " + u + e)))
  {
  }

  lemma TagHasNoBlank(r: Record)
    ensures ' ' !in Tag(r)
  {
  }

  lemma BlankThenId(u: string, e: string)
    requires |u| == 36
    ensures var tail := " " + u + e; |tail| >= 37 && tail[0] == ' ' && tail[1..37] == u && tail[37..] == e
  {
  }

  /** `ParseRecord` in terms of the fields it has located. */
  lemma ParseRecordFields(s: string, tag: string, rest: string, name: string, tail: string, agent: Uuid)
    requires SplitAtFirst(s, ' ') == Some((tag, rest))
    requires |rest| > 0 && rest[0] == '\"'
    requires SplitAtFirst(rest[1..], '\"') == Some((name, tail))
    requires |tail| >= 37 && tail[0] == ' '
    requires ParseUuid(tail[1..37]) == Some(agent)
    ensures ParseRecord(s) == Build(tag, name, agent, tail[37..])
  {
  }

  /** The timestamp written before every record. The source formats
      `DateTime.Today`, so the time of day always reads `00:00`. */
  function LinePrefix(now: Moment): (s: string)
    requires ValidMoment(now)
    ensures s == DateText(now.date) + " 00:00 "
  {
    StampText(Today(now))
  }

  /** The full line appended for a record at local time `now`. */
  function LogLine(now: Moment, r: Record): string
    requires ValidMoment(now)
  {
    LinePrefix(now) + RecordText(r)
  }

  function ParseLine(line: string): Option<(Moment, Record)> {
    if |line| < 17 then None
    else match (ParseStamp(line[..17]), ParseRecord(line[17..]))
      case (Some(m), Some(r)) => Some((m, r))
      case _ => None
  }

  /** A consumer reading a line recovers the day (at midnight) and the record. */
  lemma LineRoundTrip(now: Moment, r: Record)
    requires ValidMoment(now)
    requires '\"' !in r.name
    ensures ParseLine(LogLine(now, r)) == Some((Today(now), r))
  {
    var line := LogLine(now, r);
    assert line[..17] == StampText(Today(now));
    assert line[17..] == RecordText(r);
    StampRoundTrip(Today(now));
    RecordRoundTrip(r);
  }

  /** `{dir}/ActivityLog-{region}-{yyyy-MM-dd}.log` for `DateTime.Today`. */
  function LogFileName(dir: string, region: Uuid, now: Moment): (f: string)
    requires ValidMoment(now)
    ensures |f| == |dir| + 64
  {
    dir + "/ActivityLog-" + UuidText(region) + "-" + DateText(Today(now).date) + ".log"
  }

  /** Within one directory the file name determines region and day:
      records of different regions or days never share a file, and all
      records of one region and day do. */
  lemma LogFileNameIdentifies(dir: string, r1: Uuid, n1: Moment, r2: Uuid, n2: Moment)
    requires ValidMoment(n1) && ValidMoment(n2)
    ensures LogFileName(dir, r1, n1) == LogFileName(dir, r2, n2) <==> r1 == r2 && n1.date == n2.date
  {
    var f1 := LogFileName(dir, r1, n1);
    var f2 := LogFileName(dir, r2, n2);
    if f1 == f2 {
      FileNameParts(dir, UuidText(r1), DateText(n1.date));
      FileNameParts(dir, UuidText(r2), DateText(n2.date));
      UuidTextInjective(r1, r2);
      DateTextInjective(n1.date, n2.date);
    }
  }

  /** Where the region and the day sit in a file name. */
  lemma FileNameParts(dir: string, u: string, d: string)
    requires |u| == 36 && |d| == 10
    ensures var f := dir + "/ActivityLog-" + u + "-" + d + ".log";
            var k := |dir| + 13;
            |f| == k + 51 && f[k..k + 36] == u && f[k + 37..k + 47] == d
  {
  }
}

=== FILE: names.dfy ===
/** Actor-name resolution (`findAvatar` and `UserName`): the live presence
    of the agent in the module's scene list, else the user account of the
    first scene, else the literal `unknown`. */
module Names {
  import opened Wrappers
  import opened Uuids

  /** What the module reads from a `ScenePresence`. */
  datatype Presence = Presence(name: string, isChild: bool)

  /** A hosted region: its presences (`TryGetScenePresence`) and the names
      its user-account service knows (`GetUserAccount`). */
  datatype Scene = Scene(presences: map<Uuid, Presence>, accounts: map<Uuid, string>)

  /** The agent is a root (non-child) presence in the scene. */
  predicate RootIn(sc: Scene, a: Uuid) {
    a in sc.presences && !sc.presences[a].isChild
  }

  /** `findAvatar`: the first root presence of the agent, scanning the
      scenes in the order they were added. */
  function FindAvatar(scenes: seq<Scene>, a: Uuid): (r: Option<Presence>)
    ensures r.None? <==> forall i :: 0 <= i < |scenes| ==> !RootIn(scenes[i], a)
    ensures r.Some? ==>
              exists i :: && 0 <= i < |scenes| && RootIn(scenes[i], a)
                          && r.value == scenes[i].presences[a]
                          && forall j :: 0 <= j < i ==> !RootIn(scenes[j], a)
  {
    if |scenes| == 0 then None
    else if RootIn(scenes[0], a) then Some(scenes[0].presences[a])
    else FindAvatar(scenes[1..], a)
  }

  /** `UserName`. `None` stands for the exception the source raises when
      no presence is found and the scene list is empty (`m_scenes[0]`). */
  function UserName(scenes: seq<Scene>, a: Uuid): (r: Option<string>)
    ensures r.None? <==> |scenes| == 0
    ensures forall i :: 0 <= i < |scenes| && RootIn(scenes[i], a) && (forall j :: 0 <= j < i ==> !RootIn(scenes[j], a))
              ==> r == Some(scenes[i].presences[a].name)
    ensures |scenes| > 0 && (forall i :: 0 <= i < |scenes| ==> !RootIn(scenes[i], a)) ==>
              r == Some(if a in scenes[0].accounts then scenes[0].accounts[a] else "unknown")
  {
    match FindAvatar(scenes, a)
    case Some(p) => Some(p.name)
    case None =>
      if |scenes| == 0 then None
      else if a in scenes[0].accounts then Some(scenes[0].accounts[a])
      else Some("unknown")
  }

  /** No presence or account name in the scenes contains a double quote. */
  predicate QuoteFreeNames(scenes: seq<Scene>) {
    && (forall i, b :: 0 <= i < |scenes| && b in scenes[i].presences ==> '\"' !in scenes[i].presences[b].name)
    && (forall i, b :: 0 <= i < |scenes| && b in scenes[i].accounts ==> '\"' !in scenes[i].accounts[b])
  }

  /** Resolution only ever returns a name taken from the scenes or
      `unknown`, so quote-free scenes give quote-free actor names. */
  lemma UserNameQuoteFree(scenes: seq<Scene>, a: Uuid)
    requires QuoteFreeNames(scenes)
    requires |scenes| > 0
    ensures '\"' !in UserName(scenes, a).value
  {
    match FindAvatar(scenes, a)
    case Some(p) =>
      var i :| 0 <= i < |scenes| && RootIn(scenes[i], a) && p == scenes[i].presences[a];
    case None =>
  }
}

=== FILE: retention.dfy ===
/** The retention sweep (`DeleteOldLogFiles`), run by the timer with the
    configured retention and by the `activity delete` console command
    with an optional day count. Times are `DateTime` ticks (100 ns). */
module Retention {
  import opened Wrappers
  import opened Text

  const TicksPerDay := 864_000_000_000

  /** `DateTime.MaxValue.Ticks`; `DateTime.MinValue.Ticks` is 0. */
  const MaxTicks := 3_155_378_975_999_999_999

  predicate ValidTicks(t: int) { 0 <= t <= MaxTicks }

  /** A file of the log directory and its last-access time. */
  datatype LogFile = LogFile(name: string, accessTime: int)

  /** `DateTime.Now.AddDays(-numDays)`, or None where `AddDays` throws
      because the result lies outside the `DateTime` range. */
  function Cutoff(now: int, numDays: int): (r: Option<int>)
    requires ValidTicks(now)
    ensures r.Some? <==> ValidTicks(now - numDays * TicksPerDay)
    ensures r.Some? ==> r.value == now - numDays * TicksPerDay
  {
    var t := now - numDays * TicksPerDay;
    if ValidTicks(t) then Some(t) else None
  }

  predicate Expired(f: LogFile, cutoff: int) {
    f.accessTime < cutoff
  }

  /** The files a sweep leaves, in directory order. */
  function Kept(files: seq<LogFile>, cutoff: int): (r: seq<LogFile>)
    ensures |r| <= |files|
  {
    if |files| == 0 then []
    else
      var last := files[|files| - 1];
      Kept(files[..|files| - 1], cutoff) + (if Expired(last, cutoff) then [] else [last])
  }

  /** The files a sweep deletes, in directory order. */
  function Deleted(files: seq<LogFile>, cutoff: int): (r: seq<LogFile>)
    ensures |r| <= |files|
  {
    if |files| == 0 then []
    else
      var last := files[|files| - 1];
      Deleted(files[..|files| - 1], cutoff) + (if Expired(last, cutoff) then [last] else [])
  }

  /** A file is kept exactly when it is listed and not expired. */
  lemma {:induction false} KeptMembers(files: seq<LogFile>, cutoff: int)
    ensures forall f :: f in Kept(files, cutoff) <==> f in files && !Expired(f, cutoff)
  {
    if |files| > 0 {
      var front := files[..|files| - 1];
      assert files == front + [files[|files| - 1]];
      KeptMembers(front, cutoff);
    }
  }

  /** A file is deleted exactly when it is listed and expired. */
  lemma {:induction false} DeletedMembers(files: seq<LogFile>, cutoff: int)
    ensures forall f :: f in Deleted(files, cutoff) <==> f in files && Expired(f, cutoff)
  {
    if |files| > 0 {
      var front := files[..|files| - 1];
      assert files == front + [files[|files| - 1]];
      DeletedMembers(front, cutoff);
    }
  }

  /** Every listed file is either kept or deleted, never both or neither. */
  lemma {:induction false} KeptAndDeletedPartition(files: seq<LogFile>, cutoff: int)
    ensures multiset(Kept(files, cutoff)) + multiset(Deleted(files, cutoff)) == multiset(files)
  {
    if |files| > 0 {
      var front := files[..|files| - 1];
      var last := files[|files| - 1];
      assert files == front + [last];
      KeptAndDeletedPartition(front, cutoff);
      PartitionStep(front, last, cutoff);
    }
  }

  lemma PartitionStep(front: seq<LogFile>, last: LogFile, cutoff: int)
    ensures multiset(Kept(front + [last], cutoff)) + multiset(Deleted(front + [last], cutoff))
         == multiset(Kept(front, cutoff)) + multiset(Deleted(front, cutoff)) + multiset{last}
  {
    var files := front + [last];
    assert files[..|files| - 1] == front;
  }

  /** Files none of which is expired are all kept. */
  lemma {:induction false} NothingExpired(files: seq<LogFile>, cutoff: int)
    requires forall i :: 0 <= i < |files| ==> !Expired(files[i], cutoff)
    ensures Kept(files, cutoff) == files
    ensures Deleted(files, cutoff) == []
  {
    if |files| > 0 {
      NothingExpired(files[..|files| - 1], cutoff);
    }
  }

  /** What a sweep did: the files left and the files deleted, or an
      `AddDays` exception that ended it before any deletion. */
  datatype Outcome = Swept(kept: seq<LogFile>, deleted: seq<LogFile>) | Aborted

  /** The sweep `DeleteOldLogFiles(numDays)` performs at time `now`. The
      cutoff is computed inside the loop, so an empty directory never
      reaches the exception. */
  function Sweep(files: seq<LogFile>, now: int, numDays: int): (r: Outcome)
    requires ValidTicks(now)
    ensures r.Aborted? <==> |files| > 0 && !ValidTicks(now - numDays * TicksPerDay)
    ensures r.Swept? ==>
              forall f :: (f in r.deleted <==> f in files && f.accessTime < now - numDays * TicksPerDay)
                       && (f in r.kept <==> f in files && f.accessTime >= now - numDays * TicksPerDay)
  {
    if |files| == 0 then Swept([], [])
    else match Cutoff(now, numDays)
      case None => Aborted
      case Some(c) =>
        KeptMembers(files, c);
        DeletedMembers(files, c);
        Swept(Kept(files, c), Deleted(files, c))
  }

  /** The loop of `DeleteOldLogFiles`: for each listed file, compare its
      access time with `Now.AddDays(-numDays)` and delete it if older. */
  method DeleteOldLogFiles(files: seq<LogFile>, now: int, numDays: int) returns (kept: seq<LogFile>, deleted: seq<LogFile>, aborted: bool)
    requires ValidTicks(now)
    ensures aborted ==> Sweep(files, now, numDays) == Aborted && kept == files && deleted == []
    ensures !aborted ==> Sweep(files, now, numDays) == Swept(kept, deleted)
  {
    kept, deleted, aborted := [], [], false;
    var i := 0;
    while i < |files|
      invariant 0 <= i <= |files|
      invariant i > 0 ==> Cutoff(now, numDays).Some?
      invariant i > 0 ==> kept == Kept(files[..i], Cutoff(now, numDays).value)
      invariant i > 0 ==> deleted == Deleted(files[..i], Cutoff(now, numDays).value)
      invariant i == 0 ==> kept == [] && deleted == []
    {
      var cutoff := Cutoff(now, numDays);
      if cutoff.None? {
        return files, [], true;
      }
      var f := files[i];
      assert files[..i + 1][..i] == files[..i];
      if f.accessTime < cutoff.value {
        deleted := deleted + [f];
      } else {
        kept := kept + [f];
      }
      i := i + 1;
    }
    assert files[..|files|] == files;
  }

  /** A second sweep with the same time and day count deletes nothing. */
  lemma SweepIdempotent(files: seq<LogFile>, now: int, numDays: int)
    requires ValidTicks(now)
    requires Sweep(files, now, numDays).Swept?
    ensures var k := Sweep(files, now, numDays).kept;
            Sweep(k, now, numDays) == Swept(k, [])
  {
    var k := Sweep(files, now, numDays).kept;
    if |k| > 0 {
      var c := Cutoff(now, numDays).value;
      KeptMembers(files, c);
      NothingExpired(k, c);
    }
  }

  /** `OnTimedEvent`: the timer sweeps with the configured retention. It
      deletes exactly the files not read for `keepForDays` days, and a
      file read since `now` always survives. */
  function OnTimer(keepForDays: Int32, files: seq<LogFile>, now: int): (r: Outcome)
    requires ValidTicks(now)
    ensures r.Aborted? ==> |files| > 0
    ensures r.Swept? ==> forall f :: f in r.deleted <==> f in files && f.accessTime < now - keepForDays * TicksPerDay
    ensures r.Swept? && 0 <= keepForDays ==> forall f :: f in files && f.accessTime >= now ==> f in r.kept
  {
    Sweep(files, now, keepForDays)
  }

  /** The day count `activity delete [n]` sweeps with, or None when the
      command does nothing: an unparsable or negative count (from the
      argument, or from the configured retention when none is given). */
  function DeleteDays(keepForDays: Int32, args: seq<string>): (r: Option<Int32>)
    ensures r.Some? ==> r.value >= 0
    ensures |args| <= 2 ==> r == (if keepForDays >= 0 then Some(keepForDays) else None)
    ensures |args| > 2 && TryParseInt32(args[2]).None? ==> r.None?
    ensures |args| > 2 && TryParseInt32(args[2]).Some? ==>
              r == (if TryParseInt32(args[2]).value >= 0 then TryParseInt32(args[2]) else None)
  {
    var numDays := if |args| > 2 then TryParseInt32(args[2]) else Some(keepForDays);
    match numDays
    case None => None
    case Some(n) => if n >= 0 then Some(n) else None
  }

  /** `ActivityDelete`: the sweep the command runs, if any. Without a
      count it sweeps with the configured retention; with one it sweeps
      with that count; it does nothing when the count does not parse or
      is negative, so it never deletes a file read at or after `now`. */
  function ActivityDelete(keepForDays: Int32, args: seq<string>, files: seq<LogFile>, now: int): (r: Option<Outcome>)
    requires ValidTicks(now)
    ensures |args| <= 2 ==> (r.Some? <==> keepForDays >= 0)
    ensures |args| <= 2 && r.Some? ==> r.value == Sweep(files, now, keepForDays)
    ensures |args| > 2 ==> (r.Some? <==> TryParseInt32(args[2]).Some? && TryParseInt32(args[2]).value >= 0)
    ensures |args| > 2 && r.Some? ==> r.value == Sweep(files, now, TryParseInt32(args[2]).value)
    ensures r.Some? && r.value.Swept? ==>
              forall f :: f in files && f.accessTime >= now ==> f in r.value.kept && f !in r.value.deleted
  {
    match DeleteDays(keepForDays, args)
    case None => None
    case Some(n) => Some(Sweep(files, now, n))
  }

  /** `activity delete <n>` with the decimal text of a count sweeps with
      exactly that count when it is non-negative and does nothing when
      it is negative. */
  lemma DeleteWithCount(keepForDays: Int32, n: Int32, extra: seq<string>)
    ensures DeleteDays(keepForDays, ["activity", "delete", IntText(n)] + extra) == (if n >= 0 then Some(n) else None)
  {
    ParseIntText(n);
  }

  /** Retention of 7 days with files last read 10 and 2 days ago: only
      the older one is deleted. */
  lemma SevenDayScenario(now: int, older: string, newer: string)
    requires ValidTicks(now) && now >= 10 * TicksPerDay
    ensures var files := [LogFile(older, now - 10 * TicksPerDay), LogFile(newer, now - 2 * TicksPerDay)];
            OnTimer(7, files, now) == Swept([files[1]], [files[0]])
  {
    var files := [LogFile(older, now - 10 * TicksPerDay), LogFile(newer, now - 2 * TicksPerDay)];
    var c := now - 7 * TicksPerDay;
    assert Cutoff(now, 7) == Some(c);
    assert files[..1] == [files[0]] && files[..1][..0] == [];
    assert Expired(files[0], c) && !Expired(files[1], c);
    assert Kept(files[..1][..0], c) == [] && Deleted(files[..1][..0], c) == [];
    assert Kept(files[..1], c) == [] by {
      assert Kept(files[..1], c) == Kept(files[..1][..0], c) + [];
    }
    assert Deleted(files[..1], c) == [files[0]] by {
      assert Deleted(files[..1], c) == Deleted(files[..1][..0], c) + [files[0]];
    }
    assert files[..|files| - 1] == files[..1];
    assert Kept(files, c) == Kept(files[..1], c) + [files[1]];
    assert Deleted(files, c) == Deleted(files[..1], c) + [];
    assert Sweep(files, now, 7) == Swept(Kept(files, c), Deleted(files, c));
  }
}

=== FILE: router.dfy ===
/** The event router and session tracker of `ActivityLogModule` as a pure
    state machine: each region event updates the agent-to-last-region map
    (`m_lastRegionID`), appends at most one line to the per-region log, and
    may send the entry notice. */
module Router {
  import opened Wrappers
  import opened Text
  import opened Uuids
  import opened Calendar
  import opened LogFormat
  import opened Config
  import opened Names

  /** The region events the module subscribes to. `fromObject` is true
      when the chat was sent by an in-world object (`SenderObject != null`). */
  datatype Event =
    | MakeRoot(agent: Uuid, region: Uuid)
    | MakeChild(agent: Uuid, region: Uuid)
    | Logout(agent: Uuid)
    | Chat(agent: Uuid, region: Uuid, channel: Int32, message: string, fromObject: bool)

  /** One appended line: the region and day select the file
      (`LogFileName`), `line` is the text written. */
  datatype Entry = Entry(region: Uuid, day: Date, line: string)

  /** The instant message shown to an agent on becoming root. */
  datatype Notice = Notice(to: Uuid, text: string)

  datatype State = State(lastRegion: map<Uuid, Uuid>, log: seq<Entry>, notices: seq<Notice>)

  /** The state after start-up: nothing tracked, nothing written. */
  const Initial: State := State(map[], [], [])

  /** The file a line of the log was appended to. */
  function FileOf(s: Settings, e: Entry): string
    requires ValidDate(e.day)
  {
    LogFileName(s.logDirectory, e.region, Moment(e.day, 0, 0))
  }

  /** Within one directory, two lines go to the same file exactly when
      they were written for the same region on the same day. */
  lemma SameFileIffSameRegionAndDay(s: Settings, e1: Entry, e2: Entry)
    requires ValidDate(e1.day) && ValidDate(e2.day)
    ensures FileOf(s, e1) == FileOf(s, e2) <==> e1.region == e2.region && e1.day == e2.day
  {
    LogFileNameIdentifies(s.logDirectory, e1.region, Moment(e1.day, 0, 0), e2.region, Moment(e2.day, 0, 0));
  }

  /** `LogRecord`: one line for `rec` in the region's file of today. */
  function Write(log: seq<Entry>, now: Moment, region: Uuid, rec: Record): seq<Entry>
    requires ValidMoment(now)
  {
    log + [Entry(region, now.date, LogLine(now, rec))]
  }

  /** The one line a presence handler appends, if presence logging is on
      and the actor name resolves. */
  function PresenceLine(s: Settings, scenes: seq<Scene>, a: Uuid): Option<string>
  {
    if s.logPresence then UserName(scenes, a) else None
  }

  /** Every other agent's entry is as before. */
  predicate OthersUnchanged(m: map<Uuid, Uuid>, m': map<Uuid, Uuid>, a: Uuid) {
    m' - {a} == m - {a}
  }

  lemma UpdateKeepsOthers(m: map<Uuid, Uuid>, a: Uuid, r: Uuid)
    ensures OthersUnchanged(m, m[a := r], a)
  {
    assert (m[a := r] - {a}).Keys == (m - {a}).Keys;
  }

  lemma RemoveKeepsOthers(m: map<Uuid, Uuid>, a: Uuid)
    ensures OthersUnchanged(m, m - {a}, a)
  {
    assert (m - {a}) - {a} == m - {a};
  }

  /** `MakeRootAgent`: the entry notice, then `m_lastRegionID[a] = r`,
      then an `ARRIVED` line in region `r`. */
  function OnMakeRoot(s: Settings, scenes: seq<Scene>, now: Moment, st: State, a: Uuid, r: Uuid): (st': State)
    requires ValidMoment(now)
    ensures a in st'.lastRegion && st'.lastRegion[a] == r
    ensures OthersUnchanged(st.lastRegion, st'.lastRegion, a)
    ensures st'.notices == st.notices + (if s.logChats && s.messageOnEntry != "" then [Notice(a, s.messageOnEntry)] else [])
    ensures PresenceLine(s, scenes, a).None? ==> st'.log == st.log
    ensures PresenceLine(s, scenes, a).Some? ==>
              st'.log == st.log + [Entry(r, now.date, LogLine(now, Arrived(PresenceLine(s, scenes, a).value, a)))]
  {
    var notices := if s.logChats && s.messageOnEntry != "" then st.notices + [Notice(a, s.messageOnEntry)] else st.notices;
    var log := if PresenceLine(s, scenes, a).None? then st.log
      else Write(st.log, now, r, Arrived(PresenceLine(s, scenes, a).value, a));
    UpdateKeepsOthers(st.lastRegion, a, r);
    State(st.lastRegion[a := r], log, notices)
  }

  /** `MakeChildAgent`: the agent's entry is removed, then a `DEPARTED`
      line goes to the region the agent became a child in. */
  function OnMakeChild(s: Settings, scenes: seq<Scene>, now: Moment, st: State, a: Uuid, r: Uuid): (st': State)
    requires ValidMoment(now)
    ensures a !in st'.lastRegion
    ensures OthersUnchanged(st.lastRegion, st'.lastRegion, a)
    ensures st'.notices == st.notices
    ensures PresenceLine(s, scenes, a).None? ==> st'.log == st.log
    ensures PresenceLine(s, scenes, a).Some? ==>
              st'.log == st.log + [Entry(r, now.date, LogLine(now, Departed(PresenceLine(s, scenes, a).value, a)))]
  {
    var log := if PresenceLine(s, scenes, a).None? then st.log
      else Write(st.log, now, r, Departed(PresenceLine(s, scenes, a).value, a));
    RemoveKeepsOthers(st.lastRegion, a);
    State(st.lastRegion - {a}, log, st.notices)
  }

  /** The region a logout is logged to: the agent's last region, or
      `UUID.Zero`, which `TryGetValue` leaves in its out parameter when
      the agent has no entry. */
  function LogoutRegion(m: map<Uuid, Uuid>, a: Uuid): (r: Uuid)
    ensures a in m ==> r == m[a]
    ensures a !in m ==> r == Zero
  {
    Get(m, a).GetOr(Zero)
  }

  /** `ClientLogout`: the entry is removed and a `LOGOUT` line goes to
      the region the agent was last root in. */
  function OnLogout(s: Settings, scenes: seq<Scene>, now: Moment, st: State, a: Uuid): (st': State)
    requires ValidMoment(now)
    ensures a !in st'.lastRegion
    ensures OthersUnchanged(st.lastRegion, st'.lastRegion, a)
    ensures st'.notices == st.notices
    ensures PresenceLine(s, scenes, a).None? ==> st'.log == st.log
    ensures PresenceLine(s, scenes, a).Some? ==>
              st'.log == st.log + [Entry(LogoutRegion(st.lastRegion, a), now.date, LogLine(now, LoggedOut(PresenceLine(s, scenes, a).value, a)))]
  {
    var r := LogoutRegion(st.lastRegion, a);
    var log := if PresenceLine(s, scenes, a).None? then st.log
      else Write(st.log, now, r, LoggedOut(PresenceLine(s, scenes, a).value, a));
    RemoveKeepsOthers(st.lastRegion, a);
    State(st.lastRegion - {a}, log, st.notices)
  }

  /** The chat filter: the handler is subscribed only when chat logging
      is on; it drops object chat and empty messages, and chat off the
      public channel unless all channels are logged. */
  predicate ChatLogged(s: Settings, channel: int, message: string, fromObject: bool) {
    && s.logChats
    && !fromObject
    && message != ""
    && (s.logAllChannels || channel == 0)
  }

  /** `ChatFromClient`: a `CHAT` line in the event's region for chat that
      passes the filter; the tracker and notices are untouched. */
  function OnChat(s: Settings, scenes: seq<Scene>, now: Moment, st: State, a: Uuid, r: Uuid, channel: Int32, message: string, fromObject: bool): (st': State)
    requires ValidMoment(now)
    ensures st'.lastRegion == st.lastRegion && st'.notices == st.notices
    ensures !ChatLogged(s, channel, message, fromObject) ==> st' == st
    ensures ChatLogged(s, channel, message, fromObject) ==>
              && (UserName(scenes, a).None? ==> st'.log == st.log)
              && (UserName(scenes, a).Some? ==>
                    st'.log == st.log + [Entry(r, now.date, LogLine(now, Chatted(UserName(scenes, a).value, a, channel, message)))])
  {
    if !s.logChats then st
    else if fromObject || message == "" then st
    else if !s.logAllChannels && channel != 0 then st
    else if UserName(scenes, a).None? then st
    else st.(log := Write(st.log, now, r, Chatted(UserName(scenes, a).value, a, channel, message)))
  }

  /** One event delivered to an enabled module. */
  function Step(s: Settings, scenes: seq<Scene>, now: Moment, st: State, ev: Event): (st': State)
    requires ValidMoment(now)
    ensures st.log <= st'.log && |st'.log| <= |st.log| + 1
    ensures st.notices <= st'.notices && |st'.notices| <= |st.notices| + 1
    ensures |st'.log| == |st.log| + 1 ==> st'.log[|st.log|].day == now.date
  {
    match ev
    case MakeRoot(a, r) => OnMakeRoot(s, scenes, now, st, a, r)
    case MakeChild(a, r) => OnMakeChild(s, scenes, now, st, a, r)
    case Logout(a) => OnLogout(s, scenes, now, st, a)
    case Chat(a, r, ch, msg, obj) => OnChat(s, scenes, now, st, a, r, ch, msg, obj)
  }

  /** A disabled module subscribes to nothing, so no event changes anything. */
  function Deliver(m: Module, scenes: seq<Scene>, now: Moment, st: State, ev: Event): State
    requires ValidMoment(now)
  {
    match m
    case Disabled => st
    case Enabled(s, _) => Step(s, scenes, now, st, ev)
  }

  /** An event together with the scene list and local time at delivery. */
  datatype Input = Input(scenes: seq<Scene>, now: Moment, event: Event)

  predicate ValidInputs(ins: seq<Input>) {
    forall i :: 0 <= i < |ins| ==> ValidMoment(ins[i].now)
  }

  /** The events delivered one after another. */
  function Run(s: Settings, st: State, ins: seq<Input>): State
    requires ValidInputs(ins)
    decreases |ins|
  {
    if |ins| == 0 then st
    else Run(s, Step(s, ins[0].scenes, ins[0].now, st, ins[0].event), ins[1..])
  }

  /** The events delivered one after another to the module as `Initialise`
      left it, enabled or not. */
  function RunModule(m: Module, st: State, ins: seq<Input>): State
    requires ValidInputs(ins)
    decreases |ins|
  {
    if |ins| == 0 then st
    else RunModule(m, Deliver(m, ins[0].scenes, ins[0].now, st, ins[0].event), ins[1..])
  }

  /** Without an `[Activity Log]` section, or with `Enabled` not true, no
      sequence of events changes the tracker, the log or the notices. */
  lemma {:induction false} DisabledModuleIdle(sec: Option<Section>, st: State, ins: seq<Input>)
    requires ValidInputs(ins)
    requires sec.None? || sec.value.enabled != Some(true)
    ensures RunModule(Initialise(sec), st, ins) == st
  {
    if |ins| > 0 {
      DisabledModuleIdle(sec, st, ins[1..]);
    }
  }

  /** An enabled module handles every event as `Run` does with its settings. */
  lemma {:induction false} EnabledModuleRuns(s: Settings, armed: bool, st: State, ins: seq<Input>)
    requires ValidInputs(ins)
    ensures RunModule(Enabled(s, armed), st, ins) == Run(s, st, ins)
    decreases |ins|
  {
    if |ins| > 0 {
      EnabledModuleRuns(s, armed, Step(s, ins[0].scenes, ins[0].now, st, ins[0].event), ins[1..]);
    }
  }

  /** `LogChatsEnabled = false` in the section leaves chat unsubscribed:
      no chat event changes anything, whatever its channel or text. */
  lemma ChatOffIgnoresChat(c: Section, scenes: seq<Scene>, now: Moment, st: State, a: Uuid, r: Uuid, channel: Int32, message: string, fromObject: bool)
    requires ValidMoment(now)
    requires c.enabled == Some(true) && c.logChatsEnabled == Some(false)
    ensures Deliver(Initialise(Some(c)), scenes, now, st, Chat(a, r, channel, message, fromObject)) == st
  {
  }

  lemma {:induction false} RunSnoc(s: Settings, st: State, ins: seq<Input>, x: Input)
    requires ValidInputs(ins) && ValidMoment(x.now)
    ensures ValidInputs(ins + [x])
    ensures Run(s, st, ins + [x]) == Step(s, x.scenes, x.now, Run(s, st, ins), x.event)
    decreases |ins|
  {
    if |ins| > 0 {
      assert (ins + [x])[1..] == ins[1..] + [x];
      RunSnoc(s, Step(s, ins[0].scenes, ins[0].now, st, ins[0].event), ins[1..], x);
    }
  }

  /** Reference for the tracker, read backwards through the events: the
      region of the agent's latest root transition, unless a child
      transition or logout of the agent came after it. */
  function LastActive(init: Option<Uuid>, ins: seq<Input>, a: Uuid): Option<Uuid> {
    if |ins| == 0 then init
    else
      var rest := LastActive(init, ins[..|ins| - 1], a);
      match ins[|ins| - 1].event
      case MakeRoot(b, r) => if b == a then Some(r) else rest
      case MakeChild(b, _) => if b == a then None else rest
      case Logout(b) => if b == a then None else rest
      case Chat(_, _, _, _, _) => rest
  }

  /** The session tracker holds, for every agent, exactly the region of
      its most recent root transition not since undone by a child
      transition or a logout; chat never affects it. */
  lemma {:induction false} TrackerIsLastActive(s: Settings, st: State, ins: seq<Input>, a: Uuid)
    requires ValidInputs(ins)
    ensures Get(Run(s, st, ins).lastRegion, a) == LastActive(Get(st.lastRegion, a), ins, a)
  {
    if |ins| > 0 {
      var front := ins[..|ins| - 1];
      var x := ins[|ins| - 1];
      assert ins == front + [x];
      RunSnoc(s, st, front, x);
      TrackerIsLastActive(s, st, front, a);
    }
  }

  /** The log is append-only: earlier lines are never changed, and each
      event adds at most one line. */
  lemma {:induction false} LogAppendOnly(s: Settings, st: State, ins: seq<Input>)
    requires ValidInputs(ins)
    ensures st.log <= Run(s, st, ins).log
    ensures |Run(s, st, ins).log| <= |st.log| + |ins|
    decreases |ins|
  {
    if |ins| > 0 {
      var st1 := Step(s, ins[0].scenes, ins[0].now, st, ins[0].event);
      LogAppendOnly(s, st1, ins[1..]);
    }
  }

  /** A line a log reader can parse, dated the day of its file. */
  predicate Readable(e: Entry) {
    var p := ParseLine(e.line);
    p.Some? && p.value.0 == Moment(e.day, 0, 0)
  }

  predicate AllReadable(log: seq<Entry>) {
    forall i :: 0 <= i < |log| ==> Readable(log[i])
  }

  predicate QuoteFreeInputs(ins: seq<Input>) {
    forall i :: 0 <= i < |ins| ==> QuoteFreeNames(ins[i].scenes)
  }

  lemma WriteKeepsReadable(log: seq<Entry>, now: Moment, region: Uuid, rec: Record)
    requires ValidMoment(now) && '\"' !in rec.name
    requires AllReadable(log)
    ensures AllReadable(Write(log, now, region, rec))
  {
    LineRoundTrip(now, rec);
  }

  lemma StepKeepsReadable(s: Settings, scenes: seq<Scene>, now: Moment, st: State, ev: Event)
    requires ValidMoment(now) && QuoteFreeNames(scenes)
    requires AllReadable(st.log)
    ensures AllReadable(Step(s, scenes, now, st, ev).log)
  {
    if |scenes| > 0 {
      UserNameQuoteFree(scenes, ev.agent);
      var n := UserName(scenes, ev.agent).value;
      match ev
      case MakeRoot(a, r) => WriteKeepsReadable(st.log, now, r, Arrived(n, a));
      case MakeChild(a, r) => WriteKeepsReadable(st.log, now, r, Departed(n, a));
      case Logout(a) => WriteKeepsReadable(st.log, now, LogoutRegion(st.lastRegion, a), LoggedOut(n, a));
      case Chat(a, r, ch, msg, _) => WriteKeepsReadable(st.log, now, r, Chatted(n, a, ch, msg));
    }
  }

  /** When no actor name contains a double quote, every entry ever written
      parses back into a timestamp (the file's day at 00:00) and a record. */
  lemma {:induction false} RunKeepsReadable(s: Settings, st: State, ins: seq<Input>)
    requires ValidInputs(ins) && QuoteFreeInputs(ins)
    requires AllReadable(st.log)
    ensures AllReadable(Run(s, st, ins).log)
    decreases |ins|
  {
    if |ins| > 0 {
      StepKeepsReadable(s, ins[0].scenes, ins[0].now, st, ins[0].event);
      var st1 := Step(s, ins[0].scenes, ins[0].now, st, ins[0].event);
      assert QuoteFreeInputs(ins[1..]) by {
        forall i | 0 <= i < |ins[1..]| ensures QuoteFreeNames(ins[1..][i].scenes) {
          assert ins[1..][i] == ins[i + 1];
        }
      }
      RunKeepsReadable(s, st1, ins[1..]);
    }
  }

  /** Four events delivered one after another, as a `Run` of four inputs. */
  lemma RunFour(s: Settings, st: State, i1: Input, i2: Input, i3: Input, i4: Input)
    requires ValidMoment(i1.now) && ValidMoment(i2.now) && ValidMoment(i3.now) && ValidMoment(i4.now)
    ensures ValidInputs([i1, i2, i3, i4])
    ensures var st1 := Step(s, i1.scenes, i1.now, st, i1.event);
            var st2 := Step(s, i2.scenes, i2.now, st1, i2.event);
            var st3 := Step(s, i3.scenes, i3.now, st2, i3.event);
            Run(s, st, [i1, i2, i3, i4]) == Step(s, i4.scenes, i4.now, st3, i4.event)
  {
    var st1 := Step(s, i1.scenes, i1.now, st, i1.event);
    var st2 := Step(s, i2.scenes, i2.now, st1, i2.event);
    var st3 := Step(s, i3.scenes, i3.now, st2, i3.event);
    var ins := [i1, i2, i3, i4];
    assert ins[1..] == [i2, i3, i4];
    assert [i2, i3, i4][1..] == [i3, i4];
    assert [i3, i4][1..] == [i4];
    assert [i4][1..] == [];
    assert Run(s, st3, [i4]) == Step(s, i4.scenes, i4.now, st3, i4.event);
    assert Run(s, st2, [i3, i4]) == Run(s, st3, [i4]);
    assert Run(s, st1, [i2, i3, i4]) == Run(s, st2, [i3, i4]);
  }

  /** With presence logging on and at least one scene, a root transition
      records the region and appends one `ARRIVED` line there. */
  lemma RootStep(s: Settings, scenes: seq<Scene>, now: Moment, st: State, a: Uuid, r: Uuid)
    requires ValidMoment(now) && s.logPresence && |scenes| > 0
    ensures var st' := Step(s, scenes, now, st, MakeRoot(a, r));
            && st'.lastRegion == st.lastRegion[a := r]
            && st'.log == st.log + [Entry(r, now.date, LogLine(now, Arrived(UserName(scenes, a).value, a)))]
  {
    var st' := Step(s, scenes, now, st, MakeRoot(a, r));
    assert st'.lastRegion.Keys == st.lastRegion.Keys + {a};
  }

  /** With presence logging on and at least one scene, a child transition
      forgets the agent and appends one `DEPARTED` line to that region. */
  lemma ChildStep(s: Settings, scenes: seq<Scene>, now: Moment, st: State, a: Uuid, r: Uuid)
    requires ValidMoment(now) && s.logPresence && |scenes| > 0
    ensures var st' := Step(s, scenes, now, st, MakeChild(a, r));
            && st'.lastRegion == st.lastRegion - {a}
            && st'.log == st.log + [Entry(r, now.date, LogLine(now, Departed(UserName(scenes, a).value, a)))]
  {
  }

  /** With presence logging on and at least one scene, a logout forgets
      the agent and appends one `LOGOUT` line to its last root region,
      or to `UUID.Zero` when none is recorded. */
  lemma LogoutStep(s: Settings, scenes: seq<Scene>, now: Moment, st: State, a: Uuid)
    requires ValidMoment(now) && s.logPresence && |scenes| > 0
    ensures var st' := Step(s, scenes, now, st, Logout(a));
            && st'.lastRegion == st.lastRegion - {a}
            && st'.log == st.log + [Entry(if a in st.lastRegion then st.lastRegion[a] else Zero, now.date,
                                          LogLine(now, LoggedOut(UserName(scenes, a).value, a)))]
  {
  }

  /** An agent arrives in `r1`, moves to `r2` (child in `r1`, then root
      in `r2`) and logs out: `r1` gets an `ARRIVED` and a `DEPARTED` line,
      `r2` an `ARRIVED` and a `LOGOUT` line, and the tracker ends empty. */
  lemma MoveThenLogout(s: Settings, scenes: seq<Scene>, now: Moment, a: Uuid, r1: Uuid, r2: Uuid)
    requires ValidMoment(now) && s.logPresence && |scenes| > 0
    ensures var n := UserName(scenes, a).value;
            var st := Run(s, Initial, [Input(scenes, now, MakeRoot(a, r1)), Input(scenes, now, MakeChild(a, r1)),
                                       Input(scenes, now, MakeRoot(a, r2)), Input(scenes, now, Logout(a))]);
            && st.lastRegion == map[]
            && st.log == [Entry(r1, now.date, LogLine(now, Arrived(n, a))),
                          Entry(r1, now.date, LogLine(now, Departed(n, a))),
                          Entry(r2, now.date, LogLine(now, Arrived(n, a))),
                          Entry(r2, now.date, LogLine(now, LoggedOut(n, a)))]
  {
    var n := UserName(scenes, a).value;
    var st1 := Step(s, scenes, now, Initial, MakeRoot(a, r1));
    var st2 := Step(s, scenes, now, st1, MakeChild(a, r1));
    var st3 := Step(s, scenes, now, st2, MakeRoot(a, r2));
    var st4 := Step(s, scenes, now, st3, Logout(a));
    RootStep(s, scenes, now, Initial, a, r1);
    ChildStep(s, scenes, now, st1, a, r1);
    RootStep(s, scenes, now, st2, a, r2);
    LogoutStep(s, scenes, now, st3, a);
    FourAppends(st1.log, st2.log, st3.log, st4.log,
                Entry(r1, now.date, LogLine(now, Arrived(n, a))), Entry(r1, now.date, LogLine(now, Departed(n, a))),
                Entry(r2, now.date, LogLine(now, Arrived(n, a))), Entry(r2, now.date, LogLine(now, LoggedOut(n, a))));
    assert st4.lastRegion == map[] by {
      assert st2.lastRegion.Keys == {};
      assert st4.lastRegion.Keys == {};
    }
    RunFour(s, Initial, Input(scenes, now, MakeRoot(a, r1)), Input(scenes, now, MakeChild(a, r1)),
            Input(scenes, now, MakeRoot(a, r2)), Input(scenes, now, Logout(a)));
  }

  lemma FourAppends(l1: seq<Entry>, l2: seq<Entry>, l3: seq<Entry>, l4: seq<Entry>, e1: Entry, e2: Entry, e3: Entry, e4: Entry)
    requires l1 == [] + [e1] && l2 == l1 + [e2] && l3 == l2 + [e3] && l4 == l3 + [e4]
    ensures l4 == [e1, e2, e3, e4]
  {
  }

  /** If the new region's root transition is delivered before the old
      region's child transition, the child transition erases the entry
      and the logout is logged to the `UUID.Zero` region. */
  lemma RootBeforeChildLosesRegion(s: Settings, scenes: seq<Scene>, now: Moment, a: Uuid, r1: Uuid, r2: Uuid)
    requires ValidMoment(now) && s.logPresence && |scenes| > 0
    ensures var n := UserName(scenes, a).value;
            var st := Run(s, Initial, [Input(scenes, now, MakeRoot(a, r1)), Input(scenes, now, MakeRoot(a, r2)),
                                       Input(scenes, now, MakeChild(a, r1)), Input(scenes, now, Logout(a))]);
            && |st.log| == 4
            && st.log[3] == Entry(Zero, now.date, LogLine(now, LoggedOut(n, a)))
  {
    RunFour(s, Initial, Input(scenes, now, MakeRoot(a, r1)), Input(scenes, now, MakeRoot(a, r2)),
            Input(scenes, now, MakeChild(a, r1)), Input(scenes, now, Logout(a)));
  }
}

=== FILE: text.dfy ===
/** Character-level text handling shared by the formatters and parsers:
    decimal digits, the 32-bit integer text form of .NET (`Int32.ToString`
    and `Int32.TryParse`), `String.TrimStart`/`TrimEnd` over a character set,
    and splitting a string at the first occurrence of a delimiter. */
module Text {
  import opened Wrappers

  /** The values of a C# `int`. */
  type Int32 = x: int | -0x8000_0000 <= x < 0x8000_0000

  predicate IsInt32(x: int) { -0x8000_0000 <= x < 0x8000_0000 }

  predicate IsDigit(c: char) { '0' <= c <= '9' }

  predicate AllDigits(s: string) { forall i :: 0 <= i < |s| ==> IsDigit(s[i]) }

  function DigitChar(d: nat): (c: char)
    requires d < 10
    ensures IsDigit(c)
  {
    "0123456789"[d]
  }

  function DigitValue(c: char): (d: nat)
    requires IsDigit(c)
    ensures d < 10 && DigitChar(d) == c
  {
    (c as int) - ('0' as int)
  }

  function Pow10(w: nat): (p: nat)
    ensures p >= 1
  {
    if w == 0 then 1 else 10 * Pow10(w - 1)
  }

  /** The value of a string of decimal digits, most significant first. */
  function Value(s: string): nat
    requires AllDigits(s)
  {
    if |s| == 0 then 0 else 10 * Value(s[..|s| - 1]) + DigitValue(s[|s| - 1])
  }

  /** Appending a digit multiplies the value by ten and adds the digit. */
  lemma ValueSnoc(p: string, d: nat)
    requires AllDigits(p) && d < 10
    ensures AllDigits(p + [DigitChar(d)])
    ensures Value(p + [DigitChar(d)]) == 10 * Value(p) + d
  {
    var s := p + [DigitChar(d)];
    assert s[..|s| - 1] == p;
    assert "0123456789"[d] as int - '0' as int == d;
  }

  /** `n` written with exactly `w` digits, zero padded on the left
      (the `yyyy`, `MM`, `dd`, `HH`, `mm` fields of a .NET format string). */
  function Digits(n: nat, w: nat): (s: string)
    requires n < Pow10(w)
    ensures |s| == w && AllDigits(s)
  {
    if w == 0 then [] else Digits(n / 10, w - 1) + [DigitChar(n % 10)]
  }

  lemma {:induction false} DigitsValue(n: nat, w: nat)
    requires n < Pow10(w)
    ensures Value(Digits(n, w)) == n
  {
    if w > 0 {
      var q, d := n / 10, n % 10;
      DigitsValue(q, w - 1);
      ValueSnoc(Digits(q, w - 1), d);
    }
  }

  /** The shortest decimal text of a natural number (no leading zeros). */
  function NatText(n: nat): (s: string)
    ensures |s| >= 1 && AllDigits(s)
    ensures |s| > 1 ==> s[0] != '0'
  {
    if n < 10 then [DigitChar(n)] else NatText(n / 10) + [DigitChar(n % 10)]
  }

  lemma {:induction false} NatTextValue(n: nat)
    ensures Value(NatText(n)) == n
  {
    if n >= 10 {
      var q, d := n / 10, n % 10;
      NatTextValue(q);
      ValueSnoc(NatText(q), d);
    }
  }

  /** `Int32.ToString()`: an optional minus sign and the decimal digits. */
  function IntText(n: int): (s: string)
    ensures |s| >= 1
    ensures n >= 0 ==> AllDigits(s)
    ensures n < 0 ==> s[0] == '-' && AllDigits(s[1..])
  {
    if n < 0 then "-" + NatText(-n) else NatText(n)
  }

  /** The white-space characters `Int32.TryParse` skips around a number. */
  const WhiteSpace: set<char> := {' ', '\t', '\n', '\r', '\U{B}', '\U{C}'}

  /** `String.TrimStart(chars)`: drops the longest prefix made of `chars`. */
  function TrimStart(s: string, chars: set<char>): (r: string)
    ensures |r| <= |s| && r == s[|s| - |r|..]
    ensures forall i :: 0 <= i < |s| - |r| ==> s[i] in chars
    ensures |r| == 0 || r[0] !in chars
  {
    if |s| > 0 && s[0] in chars then TrimStart(s[1..], chars) else s
  }

  /** `String.TrimEnd(chars)`: drops the longest suffix made of `chars`. */
  function TrimEnd(s: string, chars: set<char>): (r: string)
    ensures r <= s
    ensures forall i :: |r| <= i < |s| ==> s[i] in chars
    ensures |r| == 0 || r[|r| - 1] !in chars
  {
    if |s| > 0 && s[|s| - 1] in chars then TrimEnd(s[..|s| - 1], chars) else s
  }

  /** Trimming twice trims nothing more. */
  lemma TrimEndIdempotent(s: string, chars: set<char>)
    ensures TrimEnd(TrimEnd(s, chars), chars) == TrimEnd(s, chars)
  {
  }

  /** `Int32.TryParse(s, out n)` with the default `NumberStyles.Integer`
      and invariant culture signs: leading and trailing white space, an
      optional `+` or `-`, at least one ASCII digit, and a value that fits
      a 32-bit integer. */
  function TryParseInt32(s: string): (r: Option<Int32>)
  {
    match SignedValue(TrimEnd(TrimStart(s, WhiteSpace), WhiteSpace))
    case Some(v) => if IsInt32(v) then Some(v) else None
    case None => None
  }

  /** The value of an optional sign followed by at least one digit. */
  function SignedValue(t: string): (r: Option<int>)
  {
    if |t| == 0 then None
    else
      var body := if t[0] == '-' || t[0] == '+' then t[1..] else t;
      if |body| == 0 || !AllDigits(body) then None
      else if t[0] == '-' then Some(-(Value(body) as int))
      else Some(Value(body))
  }

  /** Text that starts and ends with a sign or digit is left alone by
      the white-space trimming of `TryParseInt32`. */
  lemma NoWhiteSpace(s: string)
    requires |s| > 0
    requires IsDigit(s[0]) || s[0] == '-'
    requires IsDigit(s[|s| - 1])
    ensures TrimEnd(TrimStart(s, WhiteSpace), WhiteSpace) == s
  {
    assert s[0] !in WhiteSpace;
    assert TrimStart(s, WhiteSpace) == s;
    assert s[|s| - 1] !in WhiteSpace;
  }

  /** The round trip a log reader and the console rely on: the text of
      every 32-bit integer parses back to it. */
  lemma {:induction false} ParseIntText(n: Int32)
    ensures TryParseInt32(IntText(n)) == Some(n)
  {
    var s := IntText(n);
    if n < 0 {
      var m: nat := -(n as int);
      var t := NatText(m);
      assert s == "-" + t;
      assert s[|s| - 1] == t[|t| - 1];
      NoWhiteSpace(s);
      SignedValueNegative(m);
      TryParseOfTrimmed(s, n);
    } else {
      assert s == NatText(n);
      NoWhiteSpace(s);
      SignedValueNatural(n);
      TryParseOfTrimmed(s, n);
    }
  }

  lemma TryParseOfTrimmed(s: string, n: Int32)
    requires SignedValue(TrimEnd(TrimStart(s, WhiteSpace), WhiteSpace)) == Some(n as int)
    ensures TryParseInt32(s) == Some(n)
  {
  }

  lemma SignedValueNatural(m: nat)
    ensures SignedValue(NatText(m)) == Some(m as int)
  {
    var t := NatText(m);
    assert IsDigit(t[0]);
    NatTextValue(m);
  }

  lemma SignedValueNegative(m: nat)
    requires m > 0
    ensures SignedValue("-" + NatText(m)) == Some(-(m as int))
  {
    var t := "-" + NatText(m);
    assert t[1..] == NatText(m);
    NatTextValue(m);
  }

  /** Splits `s` at the first `c`: the part before it (free of `c`) and
      the part after it. */
  function SplitAtFirst(s: string, c: char): (r: Option<(string, string)>)
    ensures r.None? <==> c !in s
    ensures r.Some? ==> c !in r.value.0 && s == r.value.0 + [c] + r.value.1
  {
    if |s| == 0 then None
    else if s[0] == c then Some(([], s[1..]))
    else match SplitAtFirst(s[1..], c)
      case None => None
      case Some(p) => Some(([s[0]] + p.0, p.1))
  }

  /** A delimiter-free head is recovered exactly by `SplitAtFirst`. */
  lemma {:induction false} SplitJoin(a: string, c: char, b: string)
    requires c !in a
    ensures SplitAtFirst(a + [c] + b, c) == Some((a, b))
  {
    var s := a + [c] + b;
    if |a| > 0 {
      assert s[0] == a[0] != c;
      assert s[1..] == a[1..] + [c] + b;
      SplitJoin(a[1..], c, b);
      assert [a[0]] + a[1..] == a;
    } else {
      assert s[1..] == b;
    }
  }
}

=== FILE: uuids.dfy ===
/** Agent and region identifiers: 128-bit UUIDs, their canonical text form
    (`8-4-4-4-12` lower-case hexadecimal digits, as `UUID.ToString()` writes
    them into every log record and log file name) and its inverse. */
module Uuids {
  import opened Wrappers

  type Byte = x: int | 0 <= x < 256

  type Uuid = s: seq<Byte> | |s| == 16 witness [0, 0, 0, 0, 0, 0, 0, 0, 0, 0, 0, 0, 0, 0, 0, 0]

  /** `UUID.Zero`: the region a logout falls back to when no region is known. */
  const Zero: Uuid := [0, 0, 0, 0, 0, 0, 0, 0, 0, 0, 0, 0, 0, 0, 0, 0]

  function HexDigit(d: nat): char
    requires d < 16
  {
    "0123456789abcdef"[d]
  }

  function HexValue(c: char): (r: Option<nat>)
    ensures r.Some? ==> r.value < 16 && HexDigit(r.value) == c
  {
    if '0' <= c <= '9' then Some(c as int - '0' as int)
    else if 'a' <= c <= 'f' then Some(c as int - 'a' as int + 10)
    else None
  }

  lemma HexDigitValue(d: nat)
    requires d < 16
    ensures HexValue(HexDigit(d)) == Some(d)
  {
  }

  /** Two hexadecimal digits per byte, high nibble first. */
  function Hex(bs: seq<Byte>): (s: string)
    ensures |s| == 2 * |bs|
  {
    if |bs| == 0 then []
    else [HexDigit(bs[0] / 16), HexDigit(bs[0] % 16)] + Hex(bs[1..])
  }

  function ParseHex(s: string): (r: Option<seq<Byte>>)
    ensures r.Some? ==> 2 * |r.value| == |s|
  {
    if |s| == 0 then Some([])
    else if |s| == 1 then None
    else match (HexValue(s[0]), HexValue(s[1]), ParseHex(s[2..]))
      case (Some(hi), Some(lo), Some(rest)) => Some([16 * hi + lo] + rest)
      case _ => None
  }

  lemma {:induction false} HexRoundTrip(bs: seq<Byte>)
    ensures ParseHex(Hex(bs)) == Some(bs)
  {
    if |bs| > 0 {
      var hi, lo := bs[0] / 16, bs[0] % 16;
      HexDigitValue(hi);
      HexDigitValue(lo);
      HexRoundTrip(bs[1..]);
      assert Hex(bs) == [HexDigit(hi), HexDigit(lo)] + Hex(bs[1..]);
      ParseHexCons(HexDigit(hi), HexDigit(lo), Hex(bs[1..]), hi, lo, bs[1..]);
      assert [bs[0]] + bs[1..] == bs;
    }
  }

  lemma ParseHexCons(c1: char, c2: char, rest: string, hi: nat, lo: nat, tail: seq<Byte>)
    requires hi < 16 && lo < 16
    requires HexValue(c1) == Some(hi) && HexValue(c2) == Some(lo) && ParseHex(rest) == Some(tail)
    ensures ParseHex([c1, c2] + rest) == Some([16 * hi + lo] + tail)
  {
    assert ([c1, c2] + rest)[2..] == rest;
  }

  /** The canonical text of a UUID, e.g. `00000000-0000-0000-0000-000000000000`. */
  function UuidText(u: Uuid): (s: string)
    ensures |s| == 36
    ensures s[8] == '-' && s[13] == '-' && s[18] == '-' && s[23] == '-'
    ensures '\"' !in s && ' ' !in s
  {
    var a, b, c, d, e := Hex(u[..4]), Hex(u[4..6]), Hex(u[6..8]), Hex(u[8..10]), Hex(u[10..]);
    DashedParts(a, b, c, d, e);
    HexHasNoQuoteOrBlank(u[..4]);
    HexHasNoQuoteOrBlank(u[4..6]);
    HexHasNoQuoteOrBlank(u[6..8]);
    HexHasNoQuoteOrBlank(u[8..10]);
    HexHasNoQuoteOrBlank(u[10..]);
    DashedAlphabet(a, b, c, d, e, '\"');
    DashedAlphabet(a, b, c, d, e, ' ');
    Dashed(a, b, c, d, e)
  }

  /** Five groups joined by hyphens. */
  function Dashed(a: string, b: string, c: string, d: string, e: string): string {
    a + "-" + b + "-" + c + "-" + d + "-" + e
  }

  /** The `8-4-4-4-12` layout: where the hyphens sit and where each group lies. */
  lemma DashedParts(a: string, b: string, c: string, d: string, e: string)
    requires |a| == 8 && |b| == 4 && |c| == 4 && |d| == 4 && |e| == 12
    ensures var s := Dashed(a, b, c, d, e);
            |s| == 36 && s[8] == '-' && s[13] == '-' && s[18] == '-' && s[23] == '-'
            && s[..8] == a && s[9..13] == b && s[14..18] == c && s[19..23] == d && s[24..] == e
  {
  }

  lemma DashedAlphabet(a: string, b: string, c: string, d: string, e: string, ch: char)
    requires ch != '-' && ch !in a && ch !in b && ch !in c && ch !in d && ch !in e
    ensures ch !in Dashed(a, b, c, d, e)
  {
  }

  /** Hexadecimal text holds neither quotes nor blanks. */
  lemma {:induction false} HexHasNoQuoteOrBlank(bs: seq<Byte>)
    ensures '\"' !in Hex(bs) && ' ' !in Hex(bs)
  {
    if |bs| > 0 {
      var s := Hex(bs);
      assert s == [HexDigit(bs[0] / 16), HexDigit(bs[0] % 16)] + Hex(bs[1..]);
      HexHasNoQuoteOrBlank(bs[1..]);
    }
  }

  /** Reads the canonical text form back; anything else is rejected. */
  function ParseUuid(s: string): (r: Option<Uuid>)
  {
    if |s| != 36 || s[8] != '-' || s[13] != '-' || s[18] != '-' || s[23] != '-' then None
    else match (ParseHex(s[..8]), ParseHex(s[9..13]), ParseHex(s[14..18]), ParseHex(s[19..23]), ParseHex(s[24..]))
      case (Some(a), Some(b), Some(c), Some(d), Some(e)) => Some(a + b + c + d + e)
      case _ => None
  }

  lemma UuidRoundTrip(u: Uuid)
    ensures ParseUuid(UuidText(u)) == Some(u)
  {
    var a, b, c, d, e := Hex(u[..4]), Hex(u[4..6]), Hex(u[6..8]), Hex(u[8..10]), Hex(u[10..]);
    var s := UuidText(u);
    assert s == Dashed(a, b, c, d, e);
    DashedParts(a, b, c, d, e);
    HexRoundTrip(u[..4]);
    HexRoundTrip(u[4..6]);
    HexRoundTrip(u[6..8]);
    HexRoundTrip(u[8..10]);
    HexRoundTrip(u[10..]);
    ParseGroups(s, u[..4], u[4..6], u[6..8], u[8..10], u[10..]);
    GroupsJoin(u);
  }

  lemma GroupsJoin(u: Uuid)
    ensures u[..4] + u[4..6] + u[6..8] + u[8..10] + u[10..] == u
  {
    assert u[..4] + u[4..6] == u[..6];
    assert u[..6] + u[6..8] == u[..8];
    assert u[..8] + u[8..10] == u[..10];
    assert u[..10] + u[10..] == u;
  }

  lemma ParseGroups(s: string, a: seq<Byte>, b: seq<Byte>, c: seq<Byte>, d: seq<Byte>, e: seq<Byte>)
    requires |s| == 36 && s[8] == '-' && s[13] == '-' && s[18] == '-' && s[23] == '-'
    requires ParseHex(s[..8]) == Some(a) && ParseHex(s[9..13]) == Some(b) && ParseHex(s[14..18]) == Some(c)
    requires ParseHex(s[19..23]) == Some(d) && ParseHex(s[24..]) == Some(e)
    ensures |a + b + c + d + e| == 16 && ParseUuid(s) == Some(a + b + c + d + e)
  {
  }

  /** Distinct identifiers have distinct text, so a region's log file
      name and an agent's field in a record identify them. */
  lemma UuidTextInjective(u: Uuid, v: Uuid)
    requires UuidText(u) == UuidText(v)
    ensures u == v
  {
    UuidRoundTrip(u);
    UuidRoundTrip(v);
  }
}

=== FILE: wrappers.dfy ===
/** The optional-value datatype used for lookups that may fail and for
    operations of the module that can end in an exception. */
module Wrappers {

  datatype Option<+T> = None | Some(value: T) {

    /** The held value, or `default` when there is none (a configuration
        key that is absent falls back to its default). */
    function GetOr(default: T): T {
      match this
      case Some(v) => v
      case None() => default
    }
  }

  /** Lookup in a map as an Option (C#'s Dictionary.TryGetValue). */
  function Get<K, V>(m: map<K, V>, k: K): (r: Option<V>)
    ensures r.Some? <==> k in m
    ensures r.Some? ==> r.value == m[k]
  {
    if k in m then Some(m[k]) else None
  }
}
